=== FILE: README.md ===
# Natural-language SQL handler: what happens after the query is generated

`handle_query` in `api/index.py` answers a question about a database. A
language model writes a SQL statement for the question. The handler then does
the following:

1. **Extraction** (lines 37-42). It finds the first case-insensitive `SELECT`
   in the model's raw output and keeps the text from there on. If that text,
   once stripped, ends in a Markdown code fence, it cuts that fence and strips
   again.
2. **Verbatim reply** (lines 44-45). If there is no `SELECT`, the reply is the
   raw output itself.
3. **Cardinality probe** (lines 47-52). It wraps the query as
   `SELECT COUNT(*) FROM (<query>) as subquery` and runs it. It reads the row
   count as every decimal digit in the printed result, in order. If the run
   raises, or there is no digit, the count is 0.
4. **Routing** (line 54). Fewer than 100 rows: the query is run and an answer
   chain summarises it (lines 55-61). 100 or more: the reply is a Spanish
   message that states the count and links to an Excel export. The link
   carries the query as base 64 of its UTF-8 octets (lines 62-67).

The model is written in Dafny in eight modules:

- `Wrappers`: the `Option` type.
- `Bytes`: the `byte` type.
- `Text`: Python's `str.upper`, `str.find`, `str.strip` and `str.endswith`, on ASCII.
- `Decimal`: the `str.isdigit` filter, `int()` on a digit string, and `str()` of a count.
- `Base64`: section 4 of RFC 4648, with a strict decoder.
- `Utf8`: RFC 3629, with a strict decoder.
- `Extract`: lines 37-42.
- `Handler`: lines 44-69.

Two calls are parameters of the model:

- `db.run` on the probe is a function `run: string -> Option<string>`, where
  `None` stands for "raised".
- The answer chain of lines 55-61 is a function `answer: string -> string`.
  That chain is `db.run(sql_query)` followed by the language model.

The download link is modelled exactly as line 64 writes it. That includes the
Markdown brackets and parentheses around the base URL inside the f-string.
`Handler.LinkedQuery` treats the whole literal of line 64 as a fixed prefix and
`&formato=excel` as a fixed suffix, and decodes the text between them. This is
a fact about the text of the link, not about how it is read. A URL reader
takes the query string to begin at the first `?`. Its `query` parameter would
then be `](https://bodezy.com/vistas/exportar-reporte.php?query=)` followed by
the base 64 text. Form decoding would also turn each `+` of the base 64 text
into a space. What the export page receives is not modelled.

## Model

| member | source | states |
|---|---|---|
| Text.Find | api/index.py:38 | `str.find`: -1 exactly when the needle occurs nowhere; otherwise an index where it occurs, with no occurrence before it |
| Text.Strip | api/index.py:41-42 | `str.strip`: the result sits in the text right after the leading whitespace, only whitespace follows it, and it neither begins nor ends with whitespace |
| Text.StripIdempotent | api/index.py:42 | stripping a stripped text changes nothing, so the second `strip()` of line 42 only matters after the fence cut |
| Text.StripParts | api/index.py:41-42 | a text is its leading whitespace, its stripped text and its trailing whitespace, in that order |
| Text.UpperStr | api/index.py:38 | `str.upper` on ASCII: the length is kept and each character is upper-cased in place |
| Text.EndsWithIsSuffix | api/index.py:41 | `str.endswith` holds exactly when the text is some text followed by the suffix |
| Extract.SelectPos | api/index.py:38 | the index is -1 exactly when no case-insensitive `SELECT` occurs; otherwise `SELECT` begins there and at no earlier index |
| Extract.TrimFence | api/index.py:41-42 | without a fence at the end of the stripped candidate, the candidate is kept as is; with one, at least the three fence characters go and the result is stripped again, so it neither begins nor ends with whitespace; a candidate beginning with `SELECT` keeps a prefix of itself that still begins with `SELECT` |
| Extract.CutFence | api/index.py:42 | the result is the text before the fence, stripped: it sits in that text right after its leading whitespace, only whitespace follows it there, and it neither begins nor ends with whitespace; at least the three fence characters go |
| Extract.FencedShape | api/index.py:41-42 | in the fenced case, the stripped candidate is exactly the trimmed query, then whitespace, then one fence |
| Extract.OnlyOneFenceRemoved | api/index.py:42 | only one fence is cut: a candidate ending in two fences still ends in one after trimming |
| Extract.ExtractSql | api/index.py:37-42 | the query is empty exactly when the raw output has no case-insensitive `SELECT`; otherwise it lies in the raw output at the first `SELECT` and begins with `SELECT` |
| Extract.ExtractIsSubstring | api/index.py:37-42 | the query is always a contiguous piece of the raw output |
| Extract.UnfencedIsSuffix | api/index.py:40-41 | without a trailing fence, the query is the whole rest of the raw output from the first `SELECT` on, trailing whitespace included |
| Extract.DropsTextBeforeFirstSelect | api/index.py:38-40 | any `SELECT`-free text in front of a statement is dropped, so a `WITH` clause or a leading `DELETE ...;` is lost |
| Extract.ExtractPlainStatement | api/index.py:38-42 | a text that begins with `SELECT` and ends in neither whitespace nor a backtick is extracted whole |
| Extract.SelectPosAsWritten | api/index.py:38 | as written, with the upper-casing of ASCII and of `ß` (which becomes `SS`): -1 exactly when the upper-cased text holds no `SELECT`; otherwise the first index of `SELECT` in the upper-cased text |
| Extract.AsWrittenAgreesWithoutSharpS | api/index.py:38-40 | on a text without `ß`, the index as written equals the index in the original text |
| Extract.SharpSShiftsCut | api/index.py:38-40 | as written, on `ßSELECT...` the index is 2 (taken in the upper-cased `SSSELECT...`), and the cut of the original text at 2 no longer begins with `SELECT` |
| Extract.SharpSKeptWhole | api/index.py:38-40 | taking the index in the original text gives 1 on `ßSELECT...`, where `SELECT` begins |
| Decimal.Digits | api/index.py:50 | `filter(str.isdigit, ...)`: the result holds only digits, is empty exactly when the input has no digit, and leaves a digit string unchanged |
| Decimal.ParseInt | api/index.py:50 | `int()` fails exactly on the empty string or a non-digit, and otherwise gives the decimal value, which has exactly as many digits as the text when the text has no leading zero |
| Decimal.ParseRenderRoundTrip | api/index.py:50 | `str(int(s)) == s` for every digit string without a leading zero, so parsing loses nothing the count's printing needs |
| Decimal.Render | api/index.py:65 | `str(n)` is a non-empty digit string without a leading zero (except for 0 itself) |
| Decimal.RenderRoundTrip | api/index.py:50 | `int(str(n)) == n` for every count |
| Decimal.DigitsAppend | api/index.py:50 | the digit filter distributes over concatenation |
| Decimal.DigitsAround | api/index.py:50 | filtering a text whose only digits form one run yields that run |
| Handler.ProbeQuery | api/index.py:47 | the probe begins with `SELECT COUNT(*) FROM (`, holds the query right after it, and ends with `) as subquery` |
| Handler.ProbeRoundTrip | api/index.py:47 | the query can be read back out of its probe, so distinct queries never share a probe |
| Handler.ParseCount | api/index.py:48-52 | the count is 0 when the probe raised or its result holds no digit; otherwise it is the value of all digits of the result, in order |
| Handler.ReadsPrintedCount | api/index.py:48-50 | a count printed among non-digits, as in `[(150,)]`, is read back exactly |
| Handler.Route | api/index.py:54-62 | the report path is taken exactly when the count is at least 100; the query and count are carried unchanged |
| Handler.RouteThreshold | api/index.py:54 | 99 rows give an inline answer and 100 a report; a larger count never turns a report back into an inline answer |
| Handler.Decide | api/index.py:37-62 | verbatim exactly when there is no `SELECT`, with the raw output; otherwise the extracted query, routed by the count parsed from the probe of that query |
| Handler.VerbatimIgnoresDatabase | api/index.py:44-45 | without `SELECT` the decision is the raw output whatever the database would answer, so no probe matters |
| Handler.DecisionDependsOnlyOnProbe | api/index.py:47-54 | two databases that agree on the probe of the extracted query decide alike |
| Handler.FailedProbeGoesInline | api/index.py:48-54 | a probe that raises leads to the inline path, where the query is then run |
| Handler.ProbeCountRoutes | api/index.py:48-62 | a probe that prints `n` among non-digits routes exactly as `n` itself does |
| Base64.EncodedLength | api/index.py:63 | every started group of three octets becomes four characters |
| Base64.DecodeEncode | api/index.py:63 | strict base 64 decoding gives back exactly the encoded octets |
| Utf8.Encode | api/index.py:63 | each character takes one to four octets |
| Utf8.DecodeEncode | api/index.py:63 | strict UTF-8 decoding gives back exactly the encoded text |
| Utf8.EncodeAscii | api/index.py:63 | on ASCII text the octets are the character codes themselves |
| Handler.DownloadUrl | api/index.py:63-64 | the URL begins with the literal of line 64 and ends with `&formato=excel` |
| Base64.Encode | api/index.py:63 | the encoding uses only the 64 alphabet characters and `=` |
| Handler.DownloadUrlCarriesQuery | api/index.py:63-64 | the text between the literal of line 64 and `&formato=excel` decodes back to the query, character for character |
| Handler.ReportMessage | api/index.py:65-67 | the message opens with the greeting, the count follows right after it, and it closes with the rest of the text and the download link |
| Handler.ReportMessageContents | api/index.py:65-67 | the report message states the record count, and its link gives back the query |
| Handler.Reply | api/index.py:44-67 | the verbatim reply is the raw output; the inline reply is the answer chain on the query; the report reply states the count and links to the query |
| Handler.OnlyInlineRunsQuery | api/index.py:54-67 | the verbatim and report replies do not depend on the answer chain, so only the inline path runs the query |
| Handler.HandleQuery | api/index.py:37-69 | end to end: no `SELECT` gives the raw output; a count below 100 gives the answer chain on the extracted query; otherwise a message stating the count and linking to that query |

## Left out

- `app.py` is a separate Flask entry point that hands the whole question to a SQL agent. It has no extraction, probe or routing of its own.
- Flask request parsing, the 400 reply for an empty question, and the 500 reply for any exception (lines 19-24, 69-72) are HTTP glue. `HandleQuery` returns the `respuesta` text itself.
- Environment variables, the language-model client and the database connection (lines 27-35) are configuration and foreign calls. The raw model output is an input of the model.
- `db.run` is a call into a database. It is the `run` parameter on the probe. On the inline path it is part of the `answer` parameter.
- If `db.run(sql_query)` raises on the inline path, the handler answers with a 500 reply. That is not modelled, because the whole answer chain is one opaque parameter.
- The answer chain (lines 55-61) is a prompt to a language model. Only its input, the extracted query, is modelled.
- `Text.UpperStr`, `Text.IsSpace`, `Decimal.IsDigit`: restricted to ASCII. Python's Unicode case mapping, Unicode whitespace and Unicode decimal digits (which `int()` also accepts) are not modelled. Nor are the other characters `str.isdigit` passes, such as the superscript `²`: `int()` rejects them, so there the count would fall back to 0. The one exception is U+00DF, which appears in the finding below.
- Extract.SelectPosAsWritten: upper-cases ASCII letters and `ß` only. The other non-ASCII and length-changing mappings of `str.upper` (`é` to `É`, `ſ` to `S`, `ﬁ` to `FI`) are not modelled. `ß` alone is enough to show the finding below.
- `Decimal.ParseInt` does not model the limit of 4300 digits that recent Python versions impose on `int()`. A longer digit run would raise there, and the count would fall back to 0.
- `Decimal.ParseInt` does not model the signs, underscores and surrounding whitespace that `int()` also accepts. The digit filter never passes any of them.
- Handler.DownloadUrlCarriesQuery: speaks of the text of the link only. URL parsing and form decoding by the export page are not modelled: there the `query` parameter begins after the first `?query=`, and each `+` of the base 64 text would be read as a space.
- The base 64 and UTF-8 library internals are modelled after RFC 4648 and RFC 3629 rather than the library code.

## Findings

| source | as written | input that shows it | evidently intended | confidence | as-written member | corrected member |
|---|---|---|---|---|---|---|
| api/index.py:38-40 | the index of `SELECT` is found in `raw_sql_output.upper()` and then used to slice `raw_sql_output` itself; `upper()` can lengthen the text (`ß` becomes `SS`), which shifts every later index | `ßSELECT * FROM t`: `upper()` gives `SSSELECT * FROM t`, `find` gives 2, and the slice is `ELECT * FROM t` | cut the original text where `SELECT` begins in it (index 1 here) | high; not executed | Extract.SelectPosAsWritten, Extract.SharpSShiftsCut | Extract.SelectPos, Extract.SharpSKeptWhole |

The rest of the model uses the corrected index, `Extract.SelectPos`. It is
proved to point at a `SELECT` in the original text. On the shifted input, the
code as written sends a probe of `ELECT * FROM t`. That probe fails, so the
count is 0, and the inline path runs the broken statement.

=== FILE: base64.dfy ===
/**
 * The base 64 encoding of section 4 of RFC 4648, as `base64.b64encode`
 * produces it: every 3 octets become 4 characters of the alphabet, and a
 * final group of 1 or 2 octets is completed with `=` padding. `Decode` is
 * the strict inverse (canonical padding bits, as section 3.5 asks).
 */
module Base64 {
  import opened Wrappers
  import opened Bytes

  const Pad := '='

  /** Table 1 of RFC 4648: value to character. */
  function Char(v: nat): (c: char)
    requires v < 64
    ensures IsAlphabet(c) && Index(c) == v
  {
    if v < 26 then ('A' as int + v) as char
    else if v < 52 then ('a' as int + (v - 26)) as char
    else if v < 62 then ('0' as int + (v - 52)) as char
    else if v == 62 then '+'
    else '/'
  }

  predicate IsAlphabet(c: char) {
    ('A' <= c <= 'Z') || ('a' <= c <= 'z') || ('0' <= c <= '9') || c == '+' || c == '/'
  }

  /** Table 1 of RFC 4648: character to value. */
  function Index(c: char): (v: nat)
    requires IsAlphabet(c)
    ensures v < 64
  {
    if 'A' <= c <= 'Z' then c as int - 'A' as int
    else if 'a' <= c <= 'z' then c as int - 'a' as int + 26
    else if '0' <= c <= '9' then c as int - '0' as int + 52
    else if c == '+' then 62
    else 63
  }

  /** Three octets, 24 bits, as four 6-bit groups. */
  function EncodeBlock(b0: byte, b1: byte, b2: byte): (s: string) {
    [Char(b0 / 4), Char(b0 % 4 * 16 + b1 / 16), Char(b1 % 16 * 4 + b2 / 64), Char(b2 % 64)]
  }

  /** `base64.b64encode(bs).decode('utf-8')`. */
  function Encode(bs: seq<byte>): (s: string)
    ensures forall k :: 0 <= k < |s| ==> IsAlphabet(s[k]) || s[k] == Pad
    decreases |bs|
  {
    if |bs| == 0 then []
    else if |bs| == 1 then [Char(bs[0] / 4), Char(bs[0] % 4 * 16), Pad, Pad]
    else if |bs| == 2 then [Char(bs[0] / 4), Char(bs[0] % 4 * 16 + bs[1] / 16), Char(bs[1] % 16 * 4), Pad]
    else EncodeBlock(bs[0], bs[1], bs[2]) + Encode(bs[3..])
  }

  predicate AllAlphabet(s: string) {
    forall k :: 0 <= k < |s| ==> IsAlphabet(s[k])
  }

  /** Four alphabet characters without padding. */
  function DecodeFull(q: string): (r: Option<seq<byte>>)
    requires |q| == 4
  {
    if AllAlphabet(q) then
      var c0, c1, c2, c3 := Index(q[0]), Index(q[1]), Index(q[2]), Index(q[3]);
      Some([c0 * 4 + c1 / 16, c1 % 16 * 16 + c2 / 4, c2 % 4 * 64 + c3])
    else None
  }

  /** The last group, which may carry one or two padding characters; the
      bits the padding leaves over must be zero. */
  function DecodeFinal(q: string): (r: Option<seq<byte>>)
    requires |q| == 4
  {
    if q[2] == Pad && q[3] == Pad then
      if IsAlphabet(q[0]) && IsAlphabet(q[1]) && Index(q[1]) % 16 == 0 then
        Some([Index(q[0]) * 4 + Index(q[1]) / 16])
      else None
    else if q[3] == Pad then
      if AllAlphabet(q[..3]) && Index(q[2]) % 4 == 0 then
        var c0, c1, c2 := Index(q[0]), Index(q[1]), Index(q[2]);
        Some([c0 * 4 + c1 / 16, c1 % 16 * 16 + c2 / 4])
      else None
    else DecodeFull(q)
  }

  /** Strict decoding: `None` for a length that is not a multiple of 4, a
      character outside the alphabet, misplaced padding or non-zero pad bits. */
  function Decode(s: string): (r: Option<seq<byte>>)
    decreases |s|
  {
    if |s| == 0 then Some([])
    else if |s| < 4 then None
    else if |s| == 4 then DecodeFinal(s)
    else
      match DecodeFull(s[..4])
      case None => None
      case Some(head) =>
        match Decode(s[4..])
        case None => None
        case Some(tail) => Some(head + tail)
  }

  lemma BlockRoundTrip(b0: byte, b1: byte, b2: byte)
    ensures DecodeFull(EncodeBlock(b0, b1, b2)) == Some([b0, b1, b2])
  {
    var c0, c1, c2, c3 := b0 / 4, b0 % 4 * 16 + b1 / 16, b1 % 16 * 4 + b2 / 64, b2 % 64;
    assert c1 / 16 == b0 % 4 && c1 % 16 == b1 / 16;
    assert c2 / 4 == b1 % 16 && c2 % 4 == b2 / 64;
    assert c0 * 4 + c1 / 16 == b0;
    assert c1 % 16 * 16 + c2 / 4 == b1;
    assert c2 % 4 * 64 + c3 == b2;
    var q := EncodeBlock(b0, b1, b2);
    assert q == [Char(c0), Char(c1), Char(c2), Char(c3)];
    assert AllAlphabet(q);
  }

  lemma FinalOneRoundTrip(b0: byte)
    ensures Decode(Encode([b0])) == Some([b0])
  {
    var c1 := b0 % 4 * 16;
    assert c1 / 16 == b0 % 4 && c1 % 16 == 0;
    assert b0 / 4 * 4 + c1 / 16 == b0;
  }

  lemma FinalTwoRoundTrip(b0: byte, b1: byte)
    ensures Decode(Encode([b0, b1])) == Some([b0, b1])
  {
    var c1 := b0 % 4 * 16 + b1 / 16;
    var c2 := b1 % 16 * 4;
    assert c1 / 16 == b0 % 4 && c1 % 16 == b1 / 16;
    assert c2 / 4 == b1 % 16 && c2 % 4 == 0;
    assert b0 / 4 * 4 + c1 / 16 == b0;
    assert c1 % 16 * 16 + c2 / 4 == b1;
    var q := Encode([b0, b1]);
    assert q == [Char(b0 / 4), Char(c1), Char(c2), Pad];
    assert AllAlphabet(q[..3]);
  }

  /** A final group of three octets encodes to four characters without
      padding, which `DecodeFinal` hands to `DecodeFull`. */
  lemma FinalThreeRoundTrip(b0: byte, b1: byte, b2: byte)
    ensures Decode(Encode([b0, b1, b2])) == Some([b0, b1, b2])
  {
    var block := EncodeBlock(b0, b1, b2);
    BlockRoundTrip(b0, b1, b2);
    assert [b0, b1, b2][3..] == [];
    assert Encode([b0, b1, b2]) == block + [] == block;
    assert block[2] != Pad && block[3] != Pad;
    assert Decode(block) == DecodeFinal(block) == DecodeFull(block);
  }

  /** Every started group of three octets yields four characters. */
  lemma {:induction false} EncodedLength(bs: seq<byte>)
    ensures |Encode(bs)| == (|bs| + 2) / 3 * 4
    decreases |bs|
  {
    if |bs| > 3 {
      EncodedLength(bs[3..]);
      assert (|bs| + 2) / 3 == (|bs[3..]| + 2) / 3 + 1;
    }
  }

  /** A full group in front of a non-empty rest decodes group by group. */
  lemma DecodeCons(block: string, rest: string, head: seq<byte>, tail: seq<byte>)
    requires |block| == 4 && |rest| > 0
    requires DecodeFull(block) == Some(head) && Decode(rest) == Some(tail)
    ensures Decode(block + rest) == Some(head + tail)
  {
    var s := block + rest;
    assert s[..4] == block;
    assert s[4..] == rest;
  }

  /** Decoding undoes encoding, for every octet string. */
  lemma {:induction false} DecodeEncode(bs: seq<byte>)
    ensures Decode(Encode(bs)) == Some(bs)
    decreases |bs|
  {
    if |bs| == 1 {
      assert bs == [bs[0]];
      FinalOneRoundTrip(bs[0]);
    } else if |bs| == 2 {
      assert bs == [bs[0], bs[1]];
      FinalTwoRoundTrip(bs[0], bs[1]);
    } else if |bs| == 3 {
      assert bs == [bs[0], bs[1], bs[2]];
      FinalThreeRoundTrip(bs[0], bs[1], bs[2]);
    } else if |bs| > 3 {
      var head, rest := bs[..3], bs[3..];
      assert head == [bs[0], bs[1], bs[2]];
      assert head + rest == bs;
      assert |Encode(rest)| > 0;
      BlockRoundTrip(bs[0], bs[1], bs[2]);
      DecodeEncode(rest);
      DecodeCons(EncodeBlock(bs[0], bs[1], bs[2]), Encode(rest), head, rest);
    }
  }
}

=== FILE: decimal.dfy ===
/**
 * Decimal digits as the handler meets them: `str.isdigit` used as a filter,
 * `int()` applied to the surviving digits, and the `str()` of a count that
 * an f-string performs.
 */
module Decimal {
  import opened Wrappers

  /** `str.isdigit` on ASCII. */
  predicate IsDigit(c: char) {
    '0' <= c <= '9'
  }

  predicate AllDigits(s: string) {
    forall k :: 0 <= k < |s| ==> IsDigit(s[k])
  }

  predicate NoDigits(s: string) {
    forall k :: 0 <= k < |s| ==> !IsDigit(s[k])
  }

  function DigitValue(c: char): (v: nat)
    requires IsDigit(c)
    ensures v < 10
  {
    c as int - '0' as int
  }

  function DigitChar(v: nat): (c: char)
    requires v < 10
    ensures IsDigit(c) && DigitValue(c) == v
  {
    ('0' as int + v) as char
  }

  /** `"".join(filter(str.isdigit, s))`: the digit characters of `s`, in
      order. Nothing but digits survives, a digit string survives whole, and
      the result is empty exactly when `s` holds no digit. */
  function Digits(s: string): (ds: string)
    ensures AllDigits(ds)
    ensures |ds| <= |s|
    ensures ds == [] <==> NoDigits(s)
    ensures AllDigits(s) ==> ds == s
  {
    if |s| == 0 then []
    else (if IsDigit(s[0]) then [s[0]] else []) + Digits(s[1..])
  }

  function Pow10(n: nat): (p: nat)
    ensures p >= 1
  {
    if n == 0 then 1 else 10 * Pow10(n - 1)
  }

  /** The number a string of decimal digits denotes, most significant first. */
  function Value(ds: string): (v: nat)
    requires AllDigits(ds)
    ensures v < Pow10(|ds|)
  {
    if |ds| == 0 then 0
    else 10 * Value(ds[..|ds| - 1]) + DigitValue(ds[|ds| - 1])
  }

  /** A digit string without a leading zero denotes a number with exactly
      that many digits. */
  lemma {:induction false} ValueLowerBound(ds: string)
    ensures AllDigits(ds) && ds != [] && ds[0] != '0' ==> Pow10(|ds| - 1) <= Value(ds)
    decreases |ds|
  {
    if AllDigits(ds) && |ds| > 1 && ds[0] != '0' {
      var p := ds[..|ds| - 1];
      assert p[0] == ds[0];
      ValueLowerBound(p);
      assert Value(ds) >= 10 * Value(p);
    }
  }

  /** `int(s)` for the strings the handler passes it: the empty string
      raises (here `None`), a string of digits gives its value, which is
      below `10^|s|` and, without a leading zero, at least `10^(|s|-1)`. */
  function ParseInt(s: string): (r: Option<nat>)
    ensures r.None? <==> s == [] || !AllDigits(s)
    ensures r.Some? ==> r.value == Value(s) && r.value < Pow10(|s|)
    ensures r.Some? && s[0] != '0' ==> Pow10(|s| - 1) <= r.value
  {
    ValueLowerBound(s);
    if s != [] && AllDigits(s) then Some(Value(s)) else None
  }

  /** `str(n)` for a natural number: decimal digits without a leading zero. */
  function Render(n: nat): (s: string)
    ensures |s| >= 1 && AllDigits(s)
    ensures s[0] == '0' ==> n == 0 && |s| == 1
    decreases n
  {
    if n < 10 then [DigitChar(n)] else Render(n / 10) + [DigitChar(n % 10)]
  }

  /** `int(str(n)) == n`. */
  lemma {:induction false} RenderRoundTrip(n: nat)
    ensures ParseInt(Render(n)) == Some(n)
    decreases n
  {
    if n >= 10 {
      RenderRoundTrip(n / 10);
      var s := Render(n);
      assert s[..|s| - 1] == Render(n / 10);
    }
  }

  /** `str(int(s)) == s` for every digit string without a leading zero, so
      `Render` and `ParseInt` are inverse in both directions. */
  lemma {:induction false} ParseRenderRoundTrip(s: string)
    requires s != [] && AllDigits(s) && (s[0] != '0' || |s| == 1)
    ensures ParseInt(s).Some? && Render(ParseInt(s).value) == s
    decreases |s|
  {
    if |s| > 1 {
      var p, last := s[..|s| - 1], s[|s| - 1];
      assert p[0] == s[0];
      ParseRenderRoundTrip(p);
      ValueLowerBound(p);
      var v, d := Value(s), DigitValue(last);
      assert v == 10 * Value(p) + d && d < 10 && Value(p) >= 1;
      assert v / 10 == Value(p) && v % 10 == d;
      assert DigitChar(d) == last;
      assert s == p + [last];
    }
  }

  /** The digit filter distributes over concatenation. */
  lemma {:induction false} DigitsAppend(a: string, b: string)
    ensures Digits(a + b) == Digits(a) + Digits(b)
    decreases |a|
  {
    if |a| > 0 {
      DigitsAppend(a[1..], b);
      assert (a + b)[1..] == a[1..] + b;
    } else {
      assert a + b == b;
    }
  }

  /** Filtering text that has digits only in one run gives that run. */
  lemma DigitsAround(pre: string, ds: string, post: string)
    requires NoDigits(pre) && AllDigits(ds) && NoDigits(post)
    ensures Digits(pre + ds + post) == ds
  {
    DigitsAppend(pre + ds, post);
    DigitsAppend(pre, ds);
  }
}

=== FILE: extract.dfy ===
/**
 * SQL extraction (api/index.py, lines 37-42): locate the first
 * case-insensitive `SELECT` in the generator's raw text, keep everything from
 * there on, and drop one trailing code-fence delimiter.
 */
module Extract {
  import opened Text

  const Keyword := "SELECT"
  const Fence := "```"

  /** A case-insensitive `SELECT` begins at index `i` of `s`: `SELECT`
      occurs there in `s.upper()`. */
  predicate SelectAt(s: string, i: nat) {
    MatchesAt(UpperStr(s), Keyword, i)
  }

  ghost predicate NoSelect(s: string) {
    forall i: nat :: !SelectAt(s, i)
  }

  /** `raw.upper().find("SELECT")`: -1 when no case-insensitive `SELECT`
      occurs, otherwise the index of the first one. */
  function SelectPos(raw: string): (p: int)
    ensures p == -1 <==> NoSelect(raw)
    ensures p != -1 ==> 0 <= p && SelectAt(raw, p)
    ensures p != -1 ==> forall i: nat :: i < p ==> !SelectAt(raw, i)
  {
    var p := Find(UpperStr(raw), Keyword);
    assert p != -1 ==> SelectAt(raw, p);
    p
  }

  /** Lines 41-42: if the stripped candidate ends with a fence, strip it,
      cut exactly three characters and strip again, so that the result
      neither begins nor ends with whitespace; otherwise leave the candidate
      as it is, trailing whitespace included. */
  function TrimFence(cand: string): (r: string)
    ensures !EndsWith(Strip(cand), Fence) ==> r == cand
    ensures EndsWith(Strip(cand), Fence) ==> |r| + |Fence| <= |cand|
    ensures EndsWith(Strip(cand), Fence) ==> r == [] || (!IsSpace(r[0]) && !IsSpace(r[|r| - 1]))
    ensures SelectAt(cand, 0) ==> MatchesAt(cand, r, 0) && SelectAt(r, 0)
  {
    var st := Strip(cand);
    if EndsWith(st, Fence) then
      FencedPrefix(cand);
      CutFence(st)
    else cand
  }

  /** Line 42 on a stripped text that ends with a fence: cut the fence and
      strip what is left. */
  function CutFence(st: string): (r: string)
    requires EndsWith(st, Fence)
    ensures |r| + |Fence| <= |st|
    ensures r == [] || (!IsSpace(r[0]) && !IsSpace(r[|r| - 1]))
    ensures var body := st[..|st| - |Fence|];
      MatchesAt(body, r, LeadingSpaces(body)) &&
      forall k :: LeadingSpaces(body) + |r| <= k < |body| ==> IsSpace(body[k])
  {
    Strip(st[..|st| - |Fence|])
  }

  /** Lines 37-42: the extracted query is empty exactly when the raw text
      holds no case-insensitive `SELECT`; otherwise it lies in the raw text
      at the first such `SELECT` and itself begins with `SELECT`. */
  function ExtractSql(raw: string): (q: string)
    ensures q == [] <==> NoSelect(raw)
    ensures q != [] ==> SelectPos(raw) >= 0 && MatchesAt(raw, q, SelectPos(raw))
    ensures q != [] ==> SelectAt(q, 0)
  {
    var pos := SelectPos(raw);
    if pos == -1 then [] else ExtractAt(raw, pos)
  }

  /** Lines 40-42, once `SELECT` has been found at `pos`. */
  function ExtractAt(raw: string, pos: nat): (q: string)
    requires SelectAt(raw, pos)
    ensures MatchesAt(raw, q, pos) && SelectAt(q, 0) && |q| >= |Keyword|
  {
    var cand := raw[pos..];
    SelectAtShift(raw, pos);
    SuffixMatches(raw, pos);
    var q := TrimFence(cand);
    KeywordLength(q);
    MatchesAtTrans(q, cand, raw, 0, pos);
    q
  }

  /** The extracted query is always a contiguous piece of the raw text. */
  lemma ExtractIsSubstring(raw: string)
    ensures IsSubstring(ExtractSql(raw), raw)
  {
    var q := ExtractSql(raw);
    if q == [] {
      assert MatchesAt(raw, q, 0);
    } else {
      assert MatchesAt(raw, q, SelectPos(raw));
    }
  }

  /** Line 40: without a trailing fence the query is the whole rest of the
      raw text from the first `SELECT` on, trailing whitespace included. */
  lemma UnfencedIsSuffix(raw: string)
    requires !NoSelect(raw)
    ensures SelectPos(raw) >= 0
    ensures !EndsWith(Strip(raw[SelectPos(raw)..]), Fence) ==> ExtractSql(raw) == raw[SelectPos(raw)..]
  {
  }

  /** Lines 41-42 in the fenced case: the stripped candidate is the
      trimmed query, then whitespace, then exactly one fence. */
  lemma FencedShape(cand: string)
    requires EndsWith(Strip(cand), Fence)
    ensures exists w :: AllSpace(w) && Strip(cand) == TrimFence(cand) + w + Fence
  {
    var st := Strip(cand);
    var body := st[..|st| - |Fence|];
    var r := Strip(body);
    assert st == body + Fence;
    assert TrimFence(cand) == r;
    assert LeadingSpaces(body) == 0 by {
      assert |body| > 0 ==> body[0] == st[0];
    }
    var w := body[|r|..];
    assert AllSpace(w) && body == r + w by {
      StripParts(body);
    }
    assert AllSpace(w) && Strip(cand) == TrimFence(cand) + w + Fence;
  }

  lemma FenceHasNoSpace()
    ensures forall k :: 0 <= k < |Fence| ==> !IsSpace(Fence[k])
  {
  }

  /** Line 42 cuts one fence only: a candidate ending in two fences keeps
      the first of them. */
  lemma OnlyOneFenceRemoved(cand: string)
    requires EndsWith(Strip(cand), Fence + Fence)
    ensures EndsWith(TrimFence(cand), Fence)
  {
    var st := Strip(cand);
    EndsWithSplit(st, Fence, Fence);
    var body := st[..|st| - |Fence|];
    assert TrimFence(cand) == Strip(body);
    FenceHasNoSpace();
    StripKeepsSuffix(body, Fence);
  }

  /** Lines 38-40: whatever precedes the first `SELECT` is dropped. This is
      how a `WITH ... SELECT` statement loses its `WITH` part, and how
      `DELETE ...; SELECT ...` yields only the part after the first `SELECT`. */
  lemma {:induction false} DropsTextBeforeFirstSelect(pre: string, body: string)
    requires NoSelect(pre) && SelectAt(body, 0)
    ensures ExtractSql(pre + body) == ExtractSql(body)
  {
    var raw := pre + body;
    SelectChars(body, 0);
    assert raw[|pre|..|pre| + |Keyword|] == body[0..|Keyword|];
    SelectAtSame(raw, |pre|, body, 0);
    forall i: nat | i < |pre|
      ensures !SelectAt(raw, i)
    {
      if i + |Keyword| <= |pre| {
        assert raw[i..i + |Keyword|] == pre[i..i + |Keyword|];
        SelectAtSame(raw, i, pre, i);
      } else {
        var d := |pre| - i;
        assert UpperStr(body)[0..|Keyword|][0] == Keyword[0];
        assert raw[|pre|] == body[0];
        assert 1 <= d < |Keyword| && Keyword[d] != Keyword[0];
        assert UpperStr(raw)[i..i + |Keyword|][d] != Keyword[d];
      }
    }
    assert SelectPos(raw) == |pre|;
    assert raw[|pre|..] == body;
    assert body[0..] == body;
  }

  /** A candidate whose last character is neither whitespace nor a
      backtick has no fence to trim. */
  lemma UnfencedWhenPlainEnd(cand: string)
    requires |cand| > 0 && !IsSpace(cand[|cand| - 1]) && cand[|cand| - 1] != '`'
    ensures TrimFence(cand) == cand
  {
    var r := Strip(cand);
    assert LeadingSpaces(cand) + |r| == |cand|;
    assert r[|r| - 1] == cand[|cand| - 1];
    assert |r| >= |Fence| ==> r[|r| - |Fence|..][|Fence| - 1] == r[|r| - 1];
  }

  /** Text that begins with `SELECT` and ends in a plain character is
      extracted whole. */
  lemma ExtractPlainStatement(s: string)
    requires SelectAt(s, 0)
    requires !IsSpace(s[|s| - 1]) && s[|s| - 1] != '`'
    ensures ExtractSql(s) == s
  {
    assert SelectPos(s) == 0;
    assert s[0..] == s;
    UnfencedWhenPlainEnd(s);
  }

  // ---- line 38 with a case mapping that lengthens the text ----

  /** `str.upper` on one character, for ASCII and for U+00DF (sharp s),
      whose upper case is the two letters `SS`. */
  function UpperFull(c: char): (u: string)
    ensures 1 <= |u| <= 2
  {
    if c == '\U{DF}' then "SS" else [Upper(c)]
  }

  function UpperFullStr(s: string): (u: string)
    ensures |s| <= |u|
    decreases |s|
  {
    if |s| == 0 then [] else UpperFull(s[0]) + UpperFullStr(s[1..])
  }

  /** Line 38 as written: the index is found in `raw.upper()`, whose
      indices are not those of `raw` once a character upper-cases to two. */
  function SelectPosAsWritten(raw: string): (p: int)
    ensures p == -1 <==> NoKeyword(UpperFullStr(raw))
    ensures p != -1 ==> 0 <= p && MatchesAt(UpperFullStr(raw), Keyword, p)
    ensures p != -1 ==> forall i: nat :: i < p ==> !MatchesAt(UpperFullStr(raw), Keyword, i)
  {
    var u := UpperFullStr(raw);
    var p := Find(u, Keyword);
    assert p != -1 ==> MatchesAt(u, Keyword, p);
    p
  }

  ghost predicate NoKeyword(u: string) {
    forall i: nat :: !MatchesAt(u, Keyword, i)
  }

  /** Without U+00DF the full case mapping is the character-wise one. */
  lemma {:induction false} UpperFullWithoutSharpS(s: string)
    requires forall k :: 0 <= k < |s| ==> s[k] != '\U{DF}'
    ensures UpperFullStr(s) == UpperStr(s)
    decreases |s|
  {
    if |s| > 0 {
      UpperFullWithoutSharpS(s[1..]);
      assert UpperStr(s) == [Upper(s[0])] + UpperStr(s[1..]);
    }
  }

  /** On text without U+00DF, line 38 as written and `SelectPos` give the
      same index: the two differ only where upper-casing lengthens the text. */
  lemma AsWrittenAgreesWithoutSharpS(raw: string)
    requires forall k :: 0 <= k < |raw| ==> raw[k] != '\U{DF}'
    ensures SelectPosAsWritten(raw) == SelectPos(raw)
  {
    UpperFullWithoutSharpS(raw);
  }

  lemma {:induction false} UpperFullAppend(a: string, b: string)
    ensures UpperFullStr(a + b) == UpperFullStr(a) + UpperFullStr(b)
    decreases |a|
  {
    if |a| == 0 {
      assert a + b == b;
    } else {
      assert (a + b)[0] == a[0] && (a + b)[1..] == a[1..] + b;
      UpperFullAppend(a[1..], b);
    }
  }

  lemma {:induction false} UpperFullCapitals(s: string)
    requires forall k :: 0 <= k < |s| ==> 'A' <= s[k] <= 'Z'
    ensures UpperFullStr(s) == s
    decreases |s|
  {
    if |s| > 0 {
      UpperFullCapitals(s[1..]);
    }
  }

  /** `ßSELECT...` upper-cases to `SSSELECT...`. */
  lemma UpperFullSharpSelect(t: string)
    ensures UpperFullStr(['\U{DF}'] + (Keyword + t)) == ['S', 'S'] + (Keyword + UpperFullStr(t))
  {
    var raw := ['\U{DF}'] + (Keyword + t);
    assert raw[0] == '\U{DF}' && raw[1..] == Keyword + t;
    UpperFullAppend(Keyword, t);
    forall k | 0 <= k < |Keyword|
      ensures 'A' <= Keyword[k] <= 'Z'
    {
    }
    UpperFullCapitals(Keyword);
  }

  /** In `SSSELECT...` the first `SELECT` is at index 2. */
  lemma FindAfterTwoS(w: string)
    ensures Find(['S', 'S'] + (Keyword + w), Keyword) == 2
  {
    var u := ['S', 'S'] + (Keyword + w);
    assert u[2..2 + |Keyword|] == Keyword;
    assert u[1] == 'S' && u[2] == 'S' && Keyword[1] == 'E';
    assert u[0..|Keyword|][1] == u[1];
    assert u[1..1 + |Keyword|][1] == u[2];
    assert MatchesAt(u, Keyword, 2) && !MatchesAt(u, Keyword, 0) && !MatchesAt(u, Keyword, 1);
  }

  /** Line 38 as written, on any text `ßSELECT...`: the index found is 2,
      that of `SELECT` in `SSSELECT...`, and line 40 cuts the original text
      there, so the cut loses the `S` and no longer begins with `SELECT`. */
  lemma SharpSShiftsCut(t: string)
    ensures var raw := ['\U{DF}'] + (Keyword + t);
      SelectPosAsWritten(raw) == 2 && !SelectAt(raw[2..], 0)
  {
    var raw := ['\U{DF}'] + (Keyword + t);
    UpperFullSharpSelect(t);
    FindAfterTwoS(UpperFullStr(t));
    assert raw[2] == 'E';
    assert UpperStr(raw[2..])[0] == 'E';
  }

  /** `SelectPos` answers 1 on `ßSELECT...`, where `SELECT` begins in the
      original text, so `ExtractSql` keeps the whole statement. */
  lemma SharpSKeptWhole(t: string)
    ensures var raw := ['\U{DF}'] + (Keyword + t);
      SelectPos(raw) == 1
  {
    var raw := ['\U{DF}'] + (Keyword + t);
    assert raw[1..1 + |Keyword|] == Keyword;
    forall k | 0 <= k < |Keyword|
      ensures Upper(Keyword[k]) == Keyword[k]
    {
    }
    assert SelectAt(raw, 1) by {
      assert UpperStr(raw)[1..1 + |Keyword|] == Keyword;
    }
    assert !SelectAt(raw, 0) by {
      assert UpperStr(raw)[0] == '\U{DF}';
      assert UpperStr(raw)[0..|Keyword|][0] == '\U{DF}';
    }
  }

  // ---- facts about the keyword ----

  /** Every character of a case-insensitive `SELECT` is an ASCII letter, so
      neither whitespace nor a backtick. */
  lemma SelectChars(s: string, i: nat)
    requires SelectAt(s, i)
    ensures i + |Keyword| <= |s|
    ensures forall k :: i <= k < i + |Keyword| ==> !IsSpace(s[k]) && s[k] != '`'
  {
    forall k | i <= k < i + |Keyword|
      ensures !IsSpace(s[k]) && s[k] != '`'
    {
      assert UpperStr(s)[i..i + |Keyword|][k - i] == Keyword[k - i];
      assert 'A' <= Keyword[k - i] <= 'Z';
    }
  }

  lemma KeywordLength(s: string)
    requires SelectAt(s, 0)
    ensures |s| >= |Keyword|
  {
  }

  lemma UpperSlice(s: string, a: nat, b: nat)
    requires a <= b <= |s|
    ensures UpperStr(s)[a..b] == UpperStr(s[a..b])
  {
  }

  /** Whether `SELECT` begins at an index depends only on the six
      characters there. */
  lemma SelectAtSame(s: string, i: nat, t: string, j: nat)
    requires i + |Keyword| <= |s| && j + |Keyword| <= |t|
    requires s[i..i + |Keyword|] == t[j..j + |Keyword|]
    ensures SelectAt(s, i) <==> SelectAt(t, j)
  {
    UpperSlice(s, i, i + |Keyword|);
    UpperSlice(t, j, j + |Keyword|);
  }

  lemma SelectAtShift(s: string, i: nat)
    requires SelectAt(s, i)
    ensures SelectAt(s[i..], 0)
  {
    SelectChars(s, i);
    SelectAtSame(s, i, s[i..], 0);
  }

  /** A string that begins with `SELECT` loses nothing at its front when
      stripped. */
  lemma StripKeepsFront(s: string)
    requires SelectAt(s, 0)
    ensures MatchesAt(s, Strip(s), 0) && |Strip(s)| >= |Keyword|
    ensures SelectAt(Strip(s), 0)
  {
    SelectChars(s, 0);
    assert !IsSpace(s[0]) && !IsSpace(s[|Keyword| - 1]);
    var r := Strip(s);
    SelectAtSame(s, 0, r, 0);
  }

  /** A text that begins with `SELECT` and ends with a fence still begins
      with `SELECT` once the fence is cut: the fence's backticks cannot
      overlap the keyword. */
  lemma SelectBeforeFence(st: string)
    requires SelectAt(st, 0) && EndsWith(st, Fence)
    ensures |Keyword| + |Fence| <= |st| && SelectAt(st[..|st| - |Fence|], 0)
  {
    SelectChars(st, 0);
    var n := |st| - |Fence|;
    assert st[n..][0] == Fence[0] == '`';
    assert st[n] == '`';
    assert n >= |Keyword|;
    var body := st[..n];
    assert body[0..|Keyword|] == st[0..|Keyword|];
    SelectAtSame(st, 0, body, 0);
  }

  /** Cutting the fence off a text that begins with `SELECT` leaves a
      prefix of it that still begins with `SELECT`. */
  lemma CutFenceKeepsFront(st: string)
    requires SelectAt(st, 0) && EndsWith(st, Fence)
    ensures MatchesAt(st, CutFence(st), 0) && SelectAt(CutFence(st), 0)
  {
    var body := st[..|st| - |Fence|];
    SelectBeforeFence(st);
    StripKeepsFront(body);
    assert MatchesAt(st, body, 0);
    MatchesAtTrans(Strip(body), body, st, 0, 0);
  }

  /** Lines 41-42 applied to a candidate that begins with `SELECT`: the
      fence-trimmed text is a prefix of the candidate and still begins with
      `SELECT`.
      The premise sits in the ensures so that the lemma holds for every input. */
  lemma FencedPrefix(cand: string)
    ensures var st := Strip(cand);
      SelectAt(cand, 0) && EndsWith(st, Fence) ==>
      MatchesAt(cand, CutFence(st), 0) && SelectAt(CutFence(st), 0)
  {
    var st := Strip(cand);
    if SelectAt(cand, 0) && EndsWith(st, Fence) {
      StripKeepsFront(cand);
      CutFenceKeepsFront(st);
      MatchesAtTrans(CutFence(st), st, cand, 0, 0);
    }
  }


}

=== FILE: handler.dfy ===
/**
 * The post-generation pipeline of `handle_query` (api/index.py, lines
 * 37-67): extract the query, size it with a `COUNT(*)` probe, and answer
 * with the generator's own text, an inline answer, or a report link.
 */
module Handler {
  import opened Wrappers
  import opened Text
  import opened Decimal
  import opened Extract
  import Base64
  import Utf8

  // ---- the cardinality probe (line 47) ----

  const ProbeLead := "SELECT COUNT(*) FROM ("
  const ProbeTail := ") as subquery"

  /** Line 47: the query wrapped as a sub-select of a row count. */
  function ProbeQuery(q: string): (p: string)
    ensures MatchesAt(p, ProbeLead, 0) && MatchesAt(p, q, |ProbeLead|)
    ensures EndsWith(p, ProbeTail) && |p| == |ProbeLead| + |q| + |ProbeTail|
  {
    ProbeLead + q + ProbeTail
  }

  /** The query a probe wraps, if `p` has the shape of a probe. */
  function UnwrapProbe(p: string): (r: Option<string>)
  {
    if |ProbeLead| + |ProbeTail| <= |p| && MatchesAt(p, ProbeLead, 0) && EndsWith(p, ProbeTail)
    then Some(p[|ProbeLead|..|p| - |ProbeTail|])
    else None
  }

  /** The probe carries the query verbatim: it can be read back out, so two
      different queries never share a probe. */
  lemma ProbeRoundTrip(q: string)
    ensures UnwrapProbe(ProbeQuery(q)) == Some(q)
  {
    var p := ProbeQuery(q);
    assert p[|ProbeLead|..|p| - |ProbeTail|] == q;
  }

  // ---- the row count (lines 48-52) ----

  /** Lines 48-52: `int("".join(filter(str.isdigit, result)))`, or 0 when
      `db.run` raised (`None`) or the result holds no digit, so that `int("")`
      raised. */
  function ParseCount(probe: Option<string>): (n: nat)
    ensures probe.None? ==> n == 0
    ensures probe.Some? && NoDigits(probe.value) ==> n == 0
    ensures probe.Some? && !NoDigits(probe.value) ==> n == Value(Digits(probe.value))
  {
    match probe
    case None => 0
    case Some(text) => ParseInt(Digits(text)).GetOr(0)
  }

  /** A count printed among non-digit characters, as `db.run` prints a
      one-row, one-column result such as `[(150,)]`, is read back exactly. */
  lemma ReadsPrintedCount(pre: string, n: nat, post: string)
    requires NoDigits(pre) && NoDigits(post)
    ensures ParseCount(Some(pre + Render(n) + post)) == n
  {
    DigitsAround(pre, Render(n), post);
    RenderRoundTrip(n);
  }

  // ---- routing (lines 44-45, 54-62) ----

  /** Line 54: results below this many rows are answered inline. */
  const InlineLimit: nat := 100

  /** The three ways `handle_query` answers. */
  datatype Decision =
    | Verbatim(text: string)             // no SQL found: the generator's text as is
    | Inline(query: string)              // small result: the query is run and summarised
    | Report(query: string, count: nat)  // large result: a download link is sent

  /** Lines 54-62: the threshold split between inline answer and report. */
  function Route(q: string, count: nat): (d: Decision)
    ensures d.Inline? || d.Report?
    ensures d.query == q
    ensures d.Report? <==> InlineLimit <= count
    ensures d.Report? ==> d.count == count
  {
    if count < InlineLimit then Inline(q) else Report(q, count)
  }

  /** The threshold sits exactly between 99 and 100, and a larger count
      never turns a report back into an inline answer. */
  lemma RouteThreshold(q: string, n: nat, m: nat)
    ensures Route(q, 99) == Inline(q) && Route(q, 100) == Report(q, 100)
    ensures n <= m && Route(q, n).Report? ==> Route(q, m).Report?
  {
  }

  /** Lines 37-62 with the database call `run` as a parameter (`None` where
      `db.run` raises). */
  function Decide(raw: string, run: string -> Option<string>): (d: Decision)
    ensures d.Verbatim? <==> NoSelect(raw)
    ensures d.Verbatim? ==> d.text == raw
    ensures !d.Verbatim? ==> d.query == ExtractSql(raw) && SelectAt(d.query, 0)
    ensures !d.Verbatim? ==> d == Route(d.query, ParseCount(run(ProbeQuery(d.query))))
  {
    var q := ExtractSql(raw);
    if q == [] then Verbatim(raw) else Route(q, ParseCount(run(ProbeQuery(q))))
  }

  /** Without a `SELECT` no probe result matters: the reply is the raw text
      whatever the database would have said. */
  lemma VerbatimIgnoresDatabase(raw: string, run1: string -> Option<string>, run2: string -> Option<string>)
    requires NoSelect(raw)
    ensures Decide(raw, run1) == Decide(raw, run2) == Verbatim(raw)
  {
  }

  /** The database is consulted about the probe of the extracted query and
      nothing else: two databases that agree on that probe decide alike. */
  lemma DecisionDependsOnlyOnProbe(raw: string, run1: string -> Option<string>, run2: string -> Option<string>)
    requires run1(ProbeQuery(ExtractSql(raw))) == run2(ProbeQuery(ExtractSql(raw)))
    ensures Decide(raw, run1) == Decide(raw, run2)
  {
  }

  /** Lines 51-52 and 54: a failing probe counts as zero rows, which selects
      the inline path, so the query is then run after all.
      The premise sits in the ensures so that the lemma holds for every input. */
  lemma FailedProbeGoesInline(raw: string, run: string -> Option<string>)
    ensures SelectPos(raw) != -1 && run(ProbeQuery(ExtractSql(raw))) == None ==>
      Decide(raw, run) == Inline(ExtractSql(raw))
  {
  }

  /** A probe printing the count `n` among non-digit characters, as in
      `[(n,)]`, routes by `n` itself.
      The premise sits in the ensures so that the lemma holds for every input. */
  lemma ProbeCountRoutes(raw: string, run: string -> Option<string>, pre: string, n: nat, post: string)
    requires NoDigits(pre) && NoDigits(post)
    ensures SelectPos(raw) != -1 && run(ProbeQuery(ExtractSql(raw))) == Some(pre + Render(n) + post) ==>
      Decide(raw, run) == Route(ExtractSql(raw), n)
  {
    ReadsPrintedCount(pre, n, post);
  }

  // ---- the report message (lines 63-67) ----

  const UrlLead := "[https://bodezy.com/vistas/exportar-reporte.php?query=](https://bodezy.com/vistas/exportar-reporte.php?query=)"
  const UrlTail := "&formato=excel"

  /** Lines 63-64: the literal of line 64, markdown brackets included, then
      the base 64 of the query's UTF-8 octets, then the format parameter. */
  function DownloadUrl(q: string): (url: string)
    ensures MatchesAt(url, UrlLead, 0) && EndsWith(url, UrlTail)
  {
    UrlLead + Base64.Encode(Utf8.Encode(q)) + UrlTail
  }

  /** What the export page reads back from a download URL. */
  function LinkedQuery(url: string): (q: Option<string>) {
    if |UrlLead| + |UrlTail| <= |url| && MatchesAt(url, UrlLead, 0) && EndsWith(url, UrlTail) then
      match Base64.Decode(url[|UrlLead|..|url| - |UrlTail|])
      case None => None
      case Some(octets) => Utf8.Decode(octets)
    else None
  }

  /** The download URL carries the query: decoding its parameter gives the
      query back, character for character. */
  lemma DownloadUrlCarriesQuery(q: string)
    ensures LinkedQuery(DownloadUrl(q)) == Some(q)
  {
    var e := Base64.Encode(Utf8.Encode(q));
    var url := DownloadUrl(q);
    assert url[|UrlLead|..|url| - |UrlTail|] == e;
    Base64.DecodeEncode(Utf8.Encode(q));
    Utf8.DecodeEncode(q);
  }

  const CountLead := "\U{A1}Entendido! He encontrado **"
  const RecordsWord := " registros**"
  const TooLarge := ". El resultado es demasiado grande para mostrarlo aqu\U{ED}.\n\n"
  const ClickLine := "Haz clic en el siguiente enlace para descargar el reporte completo:\n\n"
  const LinkLead := "\U{1F4E5} [**Descargar Reporte en Excel**]("
  /** Everything of lines 65-67 between the count and the URL. */
  const CountTail := RecordsWord + TooLarge + ClickLine + LinkLead
  const LinkTail := ")"

  /** Lines 65-67: the message opens with the greeting, states the count
      right after it and closes with the rest of the text and the link. */
  function ReportMessage(q: string, count: nat): (m: string)
    ensures MatchesAt(m, CountLead, 0) && MatchesAt(m, Render(count), |CountLead|)
    ensures EndsWith(m, LinkPart(q))
  {
    ThreeParts(CountLead, Render(count), LinkPart(q));
    CountLead + (Render(count) + LinkPart(q))
  }

  /** Where each of three concatenated parts sits. */
  lemma ThreeParts(a: string, b: string, c: string)
    ensures MatchesAt(a + (b + c), a, 0) && MatchesAt(a + (b + c), b, |a|)
    ensures EndsWith(a + (b + c), c)
  {
    var s := a + (b + c);
    assert s[..|a|] == a;
    assert s[|a|..|a| + |b|] == b;
    assert s[|s| - |c|..] == c;
  }

  /** The part of the message after the count, ending with the link. */
  function LinkPart(q: string): (link: string) {
    CountTail + DownloadUrl(q) + LinkTail
  }

  /** Number of leading decimal digits. */
  function LeadingDigits(s: string): (n: nat)
    ensures n <= |s|
    ensures forall k :: 0 <= k < n ==> IsDigit(s[k])
    ensures n < |s| ==> !IsDigit(s[n])
  {
    if |s| == 0 || !IsDigit(s[0]) then 0 else 1 + LeadingDigits(s[1..])
  }

  /** The record count a reader finds in a report message. */
  function ReportedCount(msg: string): (count: Option<nat>) {
    if MatchesAt(msg, CountLead, 0) then
      var rest := msg[|CountLead|..];
      ParseInt(rest[..LeadingDigits(rest)])
    else None
  }

  /** The query a reader recovers from the link in a report message. */
  function ReportedQuery(msg: string): (q: Option<string>) {
    if MatchesAt(msg, CountLead, 0) then
      var rest := msg[|CountLead|..];
      var link := rest[LeadingDigits(rest)..];
      if |CountTail| + |LinkTail| <= |link| && MatchesAt(link, CountTail, 0) && EndsWith(link, LinkTail)
      then LinkedQuery(link[|CountTail|..|link| - |LinkTail|])
      else None
    else None
  }

  /** Lines 65-67: the message states the record count and links to a URL
      from which the query is recovered. */
  lemma ReportMessageContents(q: string, count: nat)
    ensures ReportedCount(ReportMessage(q, count)) == Some(count)
    ensures ReportedQuery(ReportMessage(q, count)) == Some(q)
  {
    MessageSplit(q, count);
    CountEndsAtTail(q, count);
    ReportedCountOf(ReportMessage(q, count), q, count);
    ReportedQueryOf(ReportMessage(q, count), q, count);
  }

  lemma MessageSplit(q: string, count: nat)
    ensures MatchesAt(ReportMessage(q, count), CountLead, 0)
    ensures ReportMessage(q, count)[|CountLead|..] == Render(count) + LinkPart(q)
  {
    SplitAfter(CountLead, Render(count) + LinkPart(q));
  }

  lemma SplitAfter(a: string, b: string)
    ensures MatchesAt(a + b, a, 0) && (a + b)[|a|..] == b
  {
    assert (a + b)[..|a|] == a;
  }

  lemma CountEndsAtTail(q: string, count: nat)
    ensures LeadingDigits(Render(count) + LinkPart(q)) == |Render(count)|
  {
    assert LinkPart(q)[0] == CountTail[0] == RecordsWord[0] == ' ';
    LeadingDigitsOf(Render(count), LinkPart(q));
  }

  lemma ReportedCountOf(msg: string, q: string, count: nat)
    requires MatchesAt(msg, CountLead, 0)
    requires msg[|CountLead|..] == Render(count) + LinkPart(q)
    requires LeadingDigits(Render(count) + LinkPart(q)) == |Render(count)|
    ensures ReportedCount(msg) == Some(count)
  {
    var digits := Render(count);
    assert (digits + LinkPart(q))[..|digits|] == digits;
    RenderRoundTrip(count);
  }

  lemma ReportedQueryOf(msg: string, q: string, count: nat)
    requires MatchesAt(msg, CountLead, 0)
    requires msg[|CountLead|..] == Render(count) + LinkPart(q)
    requires LeadingDigits(Render(count) + LinkPart(q)) == |Render(count)|
    ensures ReportedQuery(msg) == Some(q)
  {
    var digits := Render(count);
    assert (digits + LinkPart(q))[|digits|..] == LinkPart(q);
    LinkPartCarriesQuery(q);
  }

  lemma LinkPartCarriesQuery(q: string)
    ensures var link := LinkPart(q);
      |CountTail| + |LinkTail| <= |link| && MatchesAt(link, CountTail, 0) && EndsWith(link, LinkTail) &&
      LinkedQuery(link[|CountTail|..|link| - |LinkTail|]) == Some(q)
  {
    var link := LinkPart(q);
    assert link[|CountTail|..|link| - |LinkTail|] == DownloadUrl(q);
    DownloadUrlCarriesQuery(q);
  }

  /** The digit run at the front of `ds + t` is `ds` when `t` does not
      start with a digit. */
  lemma LeadingDigitsOf(ds: string, t: string)
    requires AllDigits(ds) && (t == [] || !IsDigit(t[0]))
    ensures LeadingDigits(ds + t) == |ds|
  {
    var s := ds + t;
    assert forall k :: 0 <= k < |ds| ==> s[k] == ds[k];
    assert t != [] ==> !IsDigit(s[|ds|]);
  }

  // ---- the reply (lines 44-45, 61, 65-67) ----

  /** The `respuesta` field sent back; `answer` stands for the answer chain of
      lines 55-61 (the query run through `db.run` and summarised by the model). */
  function Reply(d: Decision, answer: string -> string): (reply: string)
    ensures d.Verbatim? ==> reply == d.text
    ensures d.Inline? ==> reply == answer(d.query)
    ensures d.Report? ==> ReportedCount(reply) == Some(d.count) && ReportedQuery(reply) == Some(d.query)
  {
    match d
    case Verbatim(text) => text
    case Inline(q) => answer(q)
    case Report(q, n) =>
      ReportMessageContents(q, n);
      ReportMessage(q, n)
  }

  /** Only the inline path runs the answer chain, and with it the query
      (line 59); the verbatim and report replies do not depend on it. */
  lemma OnlyInlineRunsQuery(d: Decision, answer1: string -> string, answer2: string -> string)
    requires !d.Inline?
    ensures Reply(d, answer1) == Reply(d, answer2)
  {
  }

  /** Lines 37-67 end to end. */
  function HandleQuery(raw: string, run: string -> Option<string>, answer: string -> string): (reply: string)
    ensures NoSelect(raw) ==> reply == raw
    ensures !NoSelect(raw) ==>
      var q := ExtractSql(raw);
      var n := ParseCount(run(ProbeQuery(q)));
      (n < InlineLimit ==> reply == answer(q)) &&
      (InlineLimit <= n ==> ReportedCount(reply) == Some(n) && ReportedQuery(reply) == Some(q))
  {
    Reply(Decide(raw, run), answer)
  }
}

=== FILE: text.dfy ===
/**
 * The handful of Python `str` operations the handler relies on, restricted to
 * ASCII: `str.upper`, `str.find`, `str.strip` and `str.endswith`.
 */
module Text {

  /** `str.isspace` on ASCII: space, the controls U+0009..U+000D and the
      separators U+001C..U+001F. */
  predicate IsSpace(c: char) {
    c == ' ' || ('\t' <= c <= '\r') || ('\U{1C}' <= c <= '\U{1F}')
  }

  predicate AllSpace(s: string) {
    forall k :: 0 <= k < |s| ==> IsSpace(s[k])
  }

  /** `str.upper` on one ASCII character. */
  function Upper(c: char): (u: char) {
    if 'a' <= c <= 'z' then (c as int - 32) as char else c
  }

  /** `str.upper` on ASCII text: it maps character by character, so the
      length, and with it every index, is preserved. */
  function UpperStr(s: string): (u: string)
    ensures |u| == |s|
    ensures forall k :: 0 <= k < |s| ==> u[k] == Upper(s[k])
  {
    seq(|s|, k requires 0 <= k < |s| => Upper(s[k]))
  }

  /** `needle` occurs in `hay` starting at index `i`. */
  predicate MatchesAt(hay: string, needle: string, i: nat) {
    i + |needle| <= |hay| && hay[i..i + |needle|] == needle
  }

  ghost predicate IsSubstring(sub: string, s: string) {
    exists lo: nat :: MatchesAt(s, sub, lo)
  }

  /** `str.find` from index `from` on. */
  function FindFrom(hay: string, needle: string, from: nat): (r: int)
    decreases |hay| - from
    ensures r == -1 || (from <= r && MatchesAt(hay, needle, r))
    ensures r == -1 ==> forall i: nat :: from <= i ==> !MatchesAt(hay, needle, i)
    ensures r != -1 ==> forall i: nat :: from <= i < r ==> !MatchesAt(hay, needle, i)
  {
    if from + |needle| > |hay| then -1
    else if MatchesAt(hay, needle, from) then from
    else FindFrom(hay, needle, from + 1)
  }

  /** `str.find`: the lowest index at which `needle` occurs, or -1. */
  function Find(hay: string, needle: string): (r: int)
    ensures r == -1 <==> forall i: nat :: !MatchesAt(hay, needle, i)
    ensures r != -1 ==> 0 <= r && MatchesAt(hay, needle, r)
    ensures r != -1 ==> forall i: nat :: i < r ==> !MatchesAt(hay, needle, i)
  {
    FindFrom(hay, needle, 0)
  }

  /** Number of whitespace characters `str.lstrip` removes. */
  function LeadingSpaces(s: string): (n: nat)
    ensures n <= |s|
    ensures forall k :: 0 <= k < n ==> IsSpace(s[k])
    ensures n < |s| ==> !IsSpace(s[n])
  {
    if |s| == 0 || !IsSpace(s[0]) then 0 else 1 + LeadingSpaces(s[1..])
  }

  /** Length `str.rstrip` keeps. */
  function ContentEnd(s: string): (m: nat)
    ensures m <= |s|
    ensures forall k :: m <= k < |s| ==> IsSpace(s[k])
    ensures m > 0 ==> !IsSpace(s[m - 1])
  {
    if |s| == 0 || !IsSpace(s[|s| - 1]) then |s| else ContentEnd(s[..|s| - 1])
  }

  /** `str.strip()`: the result sits in `s` right after the leading
      whitespace, only whitespace follows it, and it neither begins nor ends
      with whitespace. These three facts determine the result uniquely. */
  function Strip(s: string): (r: string)
    ensures MatchesAt(s, r, LeadingSpaces(s))
    ensures forall k :: LeadingSpaces(s) + |r| <= k < |s| ==> IsSpace(s[k])
    ensures r == [] || (!IsSpace(r[0]) && !IsSpace(r[|r| - 1]))
  {
    var a := LeadingSpaces(s);
    var b := ContentEnd(s);
    if a < b then s[a..b] else []
  }

  /** `str.endswith`. */
  predicate EndsWith(s: string, suffix: string) {
    |suffix| <= |s| && s[|s| - |suffix|..] == suffix
  }

  /** `s.endswith(suffix)` holds exactly when `s` is some text followed by
      `suffix`. */
  lemma EndsWithIsSuffix(s: string, suffix: string)
    ensures EndsWith(s, suffix) <==> exists p :: s == p + suffix
  {
    if EndsWith(s, suffix) {
      assert s == s[..|s| - |suffix|] + suffix;
    }
    if exists p :: s == p + suffix {
      var p :| s == p + suffix;
      assert s[|p|..] == suffix;
    }
  }

  /** Stripping twice is stripping once. */
  lemma {:induction false} StripIdempotent(s: string)
    ensures Strip(Strip(s)) == Strip(s)
  {
    var r := Strip(s);
    if r != [] {
      assert LeadingSpaces(r) == 0;
      var t := Strip(r);
      assert t == r[..|t|];
    }
  }

  /** `s` is its leading whitespace, its stripped text and its trailing
      whitespace, in that order. */
  lemma StripParts(s: string)
    ensures var a, r := LeadingSpaces(s), Strip(s);
      s == s[..a] + r + s[a + |r|..] && AllSpace(s[..a]) && AllSpace(s[a + |r|..])
  {
    var a, r := LeadingSpaces(s), Strip(s);
    assert s == s[..a] + s[a..a + |r|] + s[a + |r|..];
    PrefixAllSpace(s, a);
    SuffixAllSpace(s, a + |r|);
  }

  lemma PrefixAllSpace(s: string, n: nat)
    requires n <= |s| && forall k :: 0 <= k < n ==> IsSpace(s[k])
    ensures AllSpace(s[..n])
  {
    assert forall k :: 0 <= k < n ==> s[..n][k] == s[k];
  }

  lemma SuffixAllSpace(s: string, n: nat)
    requires n <= |s| && forall k :: n <= k < |s| ==> IsSpace(s[k])
    ensures AllSpace(s[n..])
  {
    assert forall k :: 0 <= k < |s| - n ==> s[n..][k] == s[n + k];
  }

  /** A suffix with no whitespace in it survives stripping. */
  lemma StripKeepsSuffix(s: string, suffix: string)
    requires EndsWith(s, suffix) && suffix != []
    requires forall k :: 0 <= k < |suffix| ==> !IsSpace(suffix[k])
    ensures EndsWith(Strip(s), suffix)
  {
    var a, r := LeadingSpaces(s), Strip(s);
    var n := |s| - |suffix|;
    assert s[n..][0] == s[n] && s[n..][|suffix| - 1] == s[|s| - 1];
    assert !IsSpace(s[n]) && !IsSpace(s[|s| - 1]);
    assert a <= n && a + |r| == |s|;
    assert r == s[a..];
    assert r[|r| - |suffix|..] == s[n..];
  }

  /** A string ending in `x + y` ends in `y`, and in `x` once `y` is cut. */
  lemma EndsWithSplit(s: string, x: string, y: string)
    requires EndsWith(s, x + y)
    ensures EndsWith(s, y) && EndsWith(s[..|s| - |y|], x)
  {
    assert s[|s| - |y|..] == (x + y)[|x|..];
    assert s[..|s| - |y|][|s| - |y| - |x|..] == (x + y)[..|x|];
  }

  /** Occurrence is transitive: a substring of a substring is a substring. */
  lemma MatchesAtTrans(a: string, b: string, c: string, i: nat, j: nat)
    requires MatchesAt(b, a, i) && MatchesAt(c, b, j)
    ensures MatchesAt(c, a, j + i)
  {
    forall k | 0 <= k < |a|
      ensures c[j + i..j + i + |a|][k] == a[k]
    {
      assert a[k] == b[i + k] == c[j + i + k];
    }
  }

  lemma SuffixMatches(s: string, i: nat)
    requires i <= |s|
    ensures MatchesAt(s, s[i..], i)
  {
    assert s[i..i + |s[i..]|] == s[i..];
  }
}

=== FILE: utf8.dfy ===
/**
 * UTF-8 (RFC 3629), as `str.encode('utf-8')` produces it: every Unicode
 * scalar value becomes one to four octets. `Decode` is the strict inverse:
 * it refuses stray continuation octets, overlong forms, surrogates and
 * values above U+10FFFF.
 */
module Utf8 {
  import opened Wrappers
  import opened Bytes

  /** Octets of one scalar value. */
  function EncodeChar(c: char): (bs: seq<byte>)
    ensures 1 <= |bs| <= 4
    ensures (c as int < 0x80) <==> |bs| == 1
  {
    var v := c as int;
    if v < 0x80 then [v]
    else if v < 0x800 then [0xC0 + v / 0x40, 0x80 + v % 0x40]
    else if v < 0x10000 then [0xE0 + v / 0x1000, 0x80 + v / 0x40 % 0x40, 0x80 + v % 0x40]
    else [0xF0 + v / 0x40000, 0x80 + v / 0x1000 % 0x40, 0x80 + v / 0x40 % 0x40, 0x80 + v % 0x40]
  }

  /** `s.encode('utf-8')`. */
  function Encode(s: string): (bs: seq<byte>)
    ensures |s| <= |bs| <= 4 * |s|
  {
    if |s| == 0 then [] else EncodeChar(s[0]) + Encode(s[1..])
  }

  predicate IsContinuation(b: byte) {
    0x80 <= b < 0xC0
  }

  predicate IsScalar(v: int) {
    (0 <= v < 0xD800) || (0xE000 <= v < 0x11_0000)
  }

  /** The scalar value the octets at the front of `bs` encode, with the
      number of octets it takes; `None` when they encode none. */
  function DecodeChar(bs: seq<byte>): (r: Option<(char, nat)>)
    requires |bs| > 0
    ensures r.Some? ==> 1 <= r.value.1 <= |bs|
  {
    var b0: int := bs[0];
    if b0 < 0x80 then Some((b0 as char, 1))
    else if 0xC0 <= b0 < 0xE0 then
      if |bs| >= 2 && IsContinuation(bs[1]) then
        var v: int := (b0 - 0xC0) * 0x40 + (bs[1] as int - 0x80);
        if 0x80 <= v then Some((v as char, 2)) else None
      else None
    else if 0xE0 <= b0 < 0xF0 then
      if |bs| >= 3 && IsContinuation(bs[1]) && IsContinuation(bs[2]) then
        var v: int := (b0 - 0xE0) * 0x1000 + (bs[1] as int - 0x80) * 0x40 + (bs[2] as int - 0x80);
        if 0x800 <= v && IsScalar(v) then Some((v as char, 3)) else None
      else None
    else if 0xF0 <= b0 < 0xF8 then
      if |bs| >= 4 && IsContinuation(bs[1]) && IsContinuation(bs[2]) && IsContinuation(bs[3]) then
        var v: int := (b0 - 0xF0) * 0x40000 + (bs[1] as int - 0x80) * 0x1000 + (bs[2] as int - 0x80) * 0x40 + (bs[3] as int - 0x80);
        if 0x1_0000 <= v && IsScalar(v) then Some((v as char, 4)) else None
      else None
    else None
  }

  /** `bs.decode('utf-8')`, with `None` where Python raises. */
  function Decode(bs: seq<byte>): (r: Option<string>)
    decreases |bs|
  {
    if |bs| == 0 then Some([])
    else
      match DecodeChar(bs)
      case None => None
      case Some((c, n)) =>
        match Decode(bs[n..])
        case None => None
        case Some(rest) => Some([c] + rest)
  }

  lemma DecodeCharTwo(c: char, rest: seq<byte>)
    requires 0x80 <= c as int < 0x800
    ensures DecodeChar(EncodeChar(c) + rest) == Some((c, 2))
  {
    var v := c as int;
    assert (v / 0x40) * 0x40 + v % 0x40 == v;
  }

  lemma DecodeCharThree(c: char, rest: seq<byte>)
    requires 0x800 <= c as int < 0x1_0000
    ensures DecodeChar(EncodeChar(c) + rest) == Some((c, 3))
  {
    var v := c as int;
    var hi, mid, lo := v / 0x1000, v / 0x40 % 0x40, v % 0x40;
    assert v / 0x40 == hi * 0x40 + mid;
    assert hi * 0x1000 + mid * 0x40 + lo == v;
  }

  lemma DecodeCharFour(c: char, rest: seq<byte>)
    requires 0x1_0000 <= c as int
    ensures DecodeChar(EncodeChar(c) + rest) == Some((c, 4))
  {
    var v := c as int;
    var top, hi, mid, lo := v / 0x40000, v / 0x1000 % 0x40, v / 0x40 % 0x40, v % 0x40;
    assert v / 0x1000 == top * 0x40 + hi;
    assert v / 0x40 == (v / 0x1000) * 0x40 + mid;
    assert top * 0x40000 + hi * 0x1000 + mid * 0x40 + lo == v;
  }

  /** The octets of one character, followed by anything, decode to that
      character first. */
  lemma DecodeCharEncode(c: char, rest: seq<byte>)
    ensures DecodeChar(EncodeChar(c) + rest) == Some((c, |EncodeChar(c)|))
  {
    var v := c as int;
    if v < 0x80 {
    } else if v < 0x800 {
      DecodeCharTwo(c, rest);
    } else if v < 0x1_0000 {
      DecodeCharThree(c, rest);
    } else {
      DecodeCharFour(c, rest);
    }
  }

  /** Decoding undoes encoding, for every string. */
  lemma {:induction false} DecodeEncode(s: string)
    ensures Decode(Encode(s)) == Some(s)
    decreases |s|
  {
    if |s| > 0 {
      var head := EncodeChar(s[0]);
      var tail := Encode(s[1..]);
      DecodeCharEncode(s[0], tail);
      DecodeEncode(s[1..]);
      assert (head + tail)[|head|..] == tail;
      assert [s[0]] + s[1..] == s;
    }
  }

  /** On ASCII text the encoding is the character codes themselves. */
  lemma {:induction false} EncodeAscii(s: string)
    requires forall k :: 0 <= k < |s| ==> s[k] as int < 0x80
    ensures |Encode(s)| == |s|
    ensures forall k :: 0 <= k < |s| ==> Encode(s)[k] == s[k] as int
    decreases |s|
  {
    if |s| > 0 {
      EncodeAscii(s[1..]);
    }
  }
}

=== FILE: wrappers.dfy ===
/** An optional value, shared by the other modules. */
module Wrappers {

  /** `None` stands for a Python call that raised, or for a value that is absent. */
  datatype Option<+T> = None | Some(value: T) {

    /** The wrapped value, or `default` when there is none. */
    function GetOr(default: T): (r: T) {
      match this
      case Some(v) => v
      case None => default
    }
  }
}

/** Octets, as produced by `str.encode` and consumed by `base64.b64encode`. */
module Bytes {

  type byte = b: int | 0 <= b < 256
}
